=== FILE: README.md ===
# Limbo round engine — a Dafny model

This project models the game logic of the two Limbo pages of the bloxcash
web client. Limbo is a single-round chance game. The player stakes an amount
on a target multiplier. A multiplier is then drawn. The round is won when the
drawn multiplier is above the target.

The project covers two pages.

- `src/pages/Limbo.tsx` is the server-backed page. The model covers its
  bet-submission guard and debit (`placeBet`) and the result-push handler.
  It also covers the reveal timer, which raises a counter from 0 to the
  server's result in 10 ms ticks, and the settlement branch that runs when the
  counter arrives. Settlement credits the server's profit and records the round
  in the history strip (`addHistoryItem`). The strip uses JavaScript's
  `trim` and `toFixed(2)`, and both are modelled.
- `src/pages/LimboGame.tsx` is a stand-alone page. Its `playGame` checks the
  bet against the balance, draws a multiplier in [0, 10), and settles on the
  spot.

React state, the socket, the HTTP client and the Redux store are replaced by
plain values. The server's replies, the random draw and the fresh history ids
are inputs. Money and multipliers are Dafny `real`s. Timer ticks are steps of
an explicit state machine.

Modules, one per concept:

| file | module | models |
|---|---|---|
| Values.dfy | Values | `Option`, the form's `number \| undefined` with NaN, JS truthiness |
| Text.dfy | Text | ECMAScript white space and `String.prototype.trim` |
| Fixed.dfy | Fixed | `Number.prototype.toFixed(2)` and a parser that reads it back |
| History.dfy | History | the history strip and `addHistoryItem` |
| Wager.dfy | Wager | `placeBet`: guard, service reply, debit |
| Reveal.dfy | Reveal | the reveal interval as a tick state machine |
| Settlement.dfy | Settlement | the settlement branch of the last tick |
| Round.dfy | Round | result push, reveal, settlement and one round end to end |
| LocalGame.dfy | LocalGame | `playGame` of the stand-alone page |

Four behaviours of the code are worth stating plainly.

- The debit is not optimistic. The balance drops only after the service
  answers with a `bet` (`Limbo.tsx:111-113`). A failed or refused request
  leaves the balance alone, and there is no reversal path.
- Only falsy stakes (absent, NaN, 0) and stakes above the balance are
  refused (`Limbo.tsx:94-100`). A negative stake passes the client guard, as
  `Wager.NegativeStakePassesGuard` states.
- A zero or missing result starts no reveal (`Limbo.tsx:129`), so nothing is
  settled for it.
- Every settled round is recorded. A round whose status is not `win` is
  recorded as `"0.00"` (`Limbo.tsx:144-146`).

## Model

| member | source | states |
|---|---|---|
| Text.TrimStart | src/pages/Limbo.tsx:39 | the leading part `trim` strips is all white space, the rest is a suffix of the input and does not start with white space |
| Text.TrimEnd | src/pages/Limbo.tsx:39 | the trailing part `trim` strips is all white space, the rest is a prefix of the input and does not end with white space |
| Text.BlankIffAllWhitespace | src/pages/Limbo.tsx:39 | the character-by-character definition of a blank string agrees, in both directions, with "every character is ECMAScript white space" |
| Text.Trim | src/pages/Limbo.tsx:39 | `item.trim()` neither starts nor ends with white space, and it is the empty (falsy) string exactly when every character of the item is white space, in both directions |
| Text.TrimIsSlice | src/pages/Limbo.tsx:39 | `item.trim()` is one contiguous slice of the item, and everything stripped before and after it is white space |
| Text.StripBothEnds | src/pages/Limbo.tsx:39 | dropping a blank head and then a blank tail leaves a slice of the original whose two stripped ends are blank |
| History.AddHistoryItem | src/pages/Limbo.tsx:38-42 | blank text leaves the history unchanged; other text puts one new entry with the given id and text in front, and the old entries follow in their order |
| Fixed.NatToDecimal | src/pages/Limbo.tsx:145 | the whole part `toFixed` writes is a non-empty digit string without leading zeros |
| Fixed.DecimalRoundTrip | src/pages/Limbo.tsx:145 | reading the written whole part back as a number gives the number that was written |
| Fixed.RoundHundredths | src/pages/Limbo.tsx:145 | the hundredths `toFixed(2)` writes are within half a hundredth of the value, with ties rounded up |
| Fixed.HundredthsToFixed | src/pages/Limbo.tsx:145 | a formatted amount is digits, a point, and exactly two digits, with no leading zero in a whole part of two or more digits |
| Fixed.ToFixed2 | src/pages/Limbo.tsx:145 | `x.toFixed(2)` is never blank, so `addHistoryItem` never ignores it, and it starts with `-` exactly when `x` is negative (`"-0.00"` included) |
| Fixed.HundredthsRoundTrip | src/pages/Limbo.tsx:145 | parsing the text written for a count of hundredths gives that count back |
| Fixed.ToFixed2RoundTrip | src/pages/Limbo.tsx:145 | parsing `x.toFixed(2)` gives `x` rounded to hundredths, with its sign |
| Fixed.ZeroToFixed2 | src/pages/Limbo.tsx:145 | `(0).toFixed(2)` is `"0.00"` |
| Fixed.TwoToFixed2 | src/pages/Limbo.tsx:145 | `(2).toFixed(2)` is `"2.00"` |
| Wager.PlaceBet | src/pages/Limbo.tsx:93-122 | a falsy stake, or a stake above the balance, is refused with its notice before any request and without a balance change; otherwise the service is asked; the balance changes only when the reply carries a bet, and then it drops by exactly the stake; a thrown request or a reply without a bet leaves the balance unchanged |
| Wager.NegativeStakePassesGuard | src/pages/Limbo.tsx:94-100 | a negative stake within the balance is accepted when the service accepts it, and the debit then raises the balance |
| Reveal.Increment | src/pages/Limbo.tsx:132 | one window's worth of increments (100 of them) adds up to the result, and the increment has the result's sign |
| Reveal.Start | src/pages/Limbo.tsx:128-133 | no reveal starts for a missing or zero result; otherwise the counter starts at 0 with the timer running toward the result |
| Reveal.Tick | src/pages/Limbo.tsx:136-150 | a tick settles exactly when the counter plus one increment reaches the result, stops the timer exactly then, and shows exactly the result; below the result it adds one increment; for a positive result the counter never falls and never passes the result |
| Reveal.ReachedIff | src/pages/Limbo.tsx:137-138 | for a positive result, `k` increments reach the result exactly when `k` is at least 100 |
| Reveal.NegativeFirstTickSettles | src/pages/Limbo.tsx:137-139 | for a negative result, the first increment already reaches the clamp condition |
| Reveal.RunReveal | src/pages/Limbo.tsx:128-153 | a missing or zero result shows nothing and settles nothing; a positive result takes exactly 100 ticks, shows `k/100` of the result on tick `k`, is positive, non-decreasing and bounded by the result, ends on the result and settles exactly once; a negative result is clamped on the first tick and settles once |
| Reveal.TickKeepsRevealing | src/pages/Limbo.tsx:136-150 | one tick of a running reveal keeps the reveal invariant: while running the counter is the number of ticks times the increment with nothing settled; once stopped the last frame is the result and settlement ran once; a positive result runs exactly 100 ticks, a negative one a single tick |
| Reveal.FramesClimb | src/pages/Limbo.tsx:136-149 | frames that climb by equal positive steps and end on the result are positive, bounded by the result and non-decreasing |
| Settlement.HistoryText | src/pages/Limbo.tsx:144-146 | the recorded text is never blank; it is `"0.00"` unless the saved status is `win`, in which case it reads back as the target multiplier rounded to hundredths |
| Settlement.Settle | src/pages/Limbo.tsx:141-147 | with no profit or a falsy multiplier nothing changes; otherwise the balance gains exactly the profit, the saved status is shown, and exactly one entry (target multiplier on a win, `"0.00"` otherwise) goes in front of the unchanged older entries |
| Round.OnResult | src/pages/Limbo.tsx:63-90 | a result push records the result and status and copies the profit into the bet form, leaving stake and multiplier as they were |
| Round.RevealAndSettle | src/pages/Limbo.tsx:128-153 | a missing or zero result changes nothing; any other result is revealed to its exact value and then settled exactly once, after the shown status was cleared |
| Round.AcceptedRoundBalance | src/pages/Limbo.tsx:93-147 | an accepted bet taken through `placeBet`, the result push, the reveal and settlement, with the debit rendered first: a zero result starts no reveal and leaves only the debit, a zero multiplier reveals the result but leaves only the debit, and any other round ends on the result, moves the balance by exactly profit minus stake, shows the saved status and puts exactly one entry in front of the old history |
| Round.PushBeforeDebitDropsDebit | src/pages/Limbo.tsx:93-147 | the same round with the result push rendered before the debit: the late debit writes balance minus stake; a round that settles then overwrites it with the pre-debit balance plus the profit, so only a settling round loses the debit, while a zero result or zero multiplier ends the page at balance minus stake |
| Round.WonRoundExample | src/pages/Limbo.tsx:141-146 | balance 100, stake 10 at target 2, won with profit 10: balance 100 and history `["2.00"]` |
| Round.LostRoundExample | src/pages/Limbo.tsx:141-146 | balance 100, stake 10, lost with profit 0: balance 90 and history `["0.00"]` |
| LocalGame.PlayGame | src/pages/LimboGame.tsx:18-37 | a bet above the balance changes only the message, to "Insufficient balance"; otherwise the result becomes the draw, a win (draw strictly above target) sets the balance to balance + bet × target − bet, and a loss sets it to balance − bet, each with its message |
| LocalGame.TieLoses | src/pages/LimboGame.tsx:27 | a draw equal to the target is a loss |
| LocalGame.LossKeepsBalanceNonNegative | src/pages/LimboGame.tsx:19-34 | with a non-negative bet that passes the guard, a lost round leaves the balance at or above zero |
| LocalGame.NegativeBetLossRaisesBalance | src/pages/LimboGame.tsx:19-34 | the guard is only an upper bound: a negative bet is played, and losing it raises the balance |
| LocalGame.NetChange | src/pages/LimboGame.tsx:27-34 | the balance changes by bet × (target − 1) on a win and by −bet on a loss |

## Left out

- Rendering, CSS classes, the counter's `"1.00"` placeholder and console logging are presentation. Toasts appear only as the `Wager.Notice` value.
- The socket and HTTP calls are I/O and are not modelled. This covers the `LIMBO:get_multipliers` request, the `LIMBO:multipliers` bulk load of the history and `api.post("/bet")`. The service's answer is the `Wager.Reply` input, and a result push is the `Round.ResultPush` input.
- Redux `dispatch`/`updateBalance` is a foreign store. The balance is a plain input and output.
- `setInterval`/`clearInterval` timing and React effect lifecycles are not modelled. Ticks are explicit steps. This leaves out the cleanup that clears a running interval when the result changes or the page unmounts. It also leaves out the fact that an identical result does not re-run the effect.
- Stale captures are not modelled. The tick closure captures `balance`, `bet` and `historyItems` when the reveal starts (`Limbo.tsx:128-146`). A history bulk load during the reveal is therefore overwritten by settlement (`Limbo.tsx:40`). `placeBet` holds its `balance` across the `await` of the request (`Limbo.tsx:104-113`). `Settlement.Settle` takes the balance and history it writes as inputs.
- Round.AcceptedRoundBalance: assumes two render orders. First, the debit of the accepted bet renders before the result push starts the reveal. In the other order the reveal captures the pre-debit balance, and a round that settles loses the debit; `Round.PushBeforeDebitDropsDebit` states that order. Second, `setResult` and the profit update of the bet form (`Limbo.tsx:80-83`) render together, as React's automatic batching does. If they rendered separately, the reveal effect (`Limbo.tsx:128`) would capture the bet form from the `setResult` render with the previous profit, and settlement would credit that. The service's acceptance is modelled as a reply carrying a bet, and the multiplier is a finite real, so a NaN or absent multiplier is not covered.
- `uuidv4` is foreign, so history ids are inputs.
- `Math.random` is replaced by an input draw in [0, 10).
- IEEE-754 rounding is not modelled, and values are exact reals. With reals a positive result settles on exactly the 100th tick. In floating point the summed increments can fall just short, so the clamp can need one more tick.
- Infinity is not a `Values.Num`. `parseFloat` gives a truthy Infinity for input such as `"1e400"`. As a stake it is refused with "Insufficient balance" (`Limbo.tsx:98`) unless the balance is itself infinite. As a target multiplier it passes the settlement check, and a won round records `"Infinity"` (`Limbo.tsx:141-146`).
- Fixed.ToFixed2: does not model the exponential form `toFixed` uses for magnitudes of 1e21 and above.
- LocalGame.PlayGame: bet and target are reals. The NaN that `Number()` gives for unreadable input, which would turn the balance into NaN, is not modelled.
- A NaN result or profit in a result push is not modelled. Nor is a status other than `win` or `lose`.
- The input handlers, `resetGame`, and the `loading` and `gameRunning` flags only bind form fields and overlays, so they are not modelled.
- Debit reversal, duplicate-push idempotency and timeouts for a missing push do not exist in the code and are not invented here.

=== FILE: Fixed.dfy ===
/**
 `Number.prototype.toFixed(2)` on exact reals, as the history strip and the
 local game's messages use it, together with a parser that reads such a
 string back as a whole number of hundredths.
 */
module Fixed {
  import opened Values
  import opened Text

  predicate IsDigit(c: char)
  {
    '0' <= c <= '9'
  }

  predicate AllDigits(s: string)
  {
    forall i :: 0 <= i < |s| ==> IsDigit(s[i])
  }

  function Digit(d: nat): (c: char)
    requires d < 10
    ensures IsDigit(c) && (c as int) - ('0' as int) == d
  {
    (('0' as int) + d) as char
  }

  function DigitValue(c: char): (d: nat)
    requires IsDigit(c)
    ensures d < 10 && Digit(d) == c
  {
    (c as int) - ('0' as int)
  }

  /** Decimal notation of a natural number, without leading zeros. */
  function NatToDecimal(n: nat): (s: string)
    ensures |s| >= 1 && AllDigits(s)
    ensures |s| > 1 ==> s[0] != '0'
    decreases n
  {
    if n < 10 then [Digit(n)] else NatToDecimal(n / 10) + [Digit(n % 10)]
  }

  /** The value of a string of decimal digits (0 for the empty string). */
  function DecimalToNat(s: string): nat
    requires AllDigits(s)
    decreases |s|
  {
    if |s| == 0 then 0
    else 10 * DecimalToNat(s[..|s| - 1]) + DigitValue(s[|s| - 1])
  }

  lemma {:induction false} DecimalRoundTrip(n: nat)
    ensures DecimalToNat(NatToDecimal(n)) == n
    decreases n
  {
    var s := NatToDecimal(n);
    if n < 10 {
      assert s[..0] == [];
    } else {
      assert s[..|s| - 1] == NatToDecimal(n / 10);
      DecimalRoundTrip(n / 10);
    }
  }

  /** The number of hundredths `toFixed(2)` writes for `x >= 0`: the integer
      `n` that makes `n / 100 - x` closest to zero, the larger one on a tie. */
  function RoundHundredths(x: real): (n: nat)
    requires x >= 0.0
    ensures (n as real) / 100.0 - x <= 0.005
    ensures x - (n as real) / 100.0 < 0.005
  {
    (x * 100.0 + 0.5).Floor
  }

  /** `x` rounded to hundredths the way `toFixed(2)` does it: the magnitude
      is rounded and the sign kept. */
  function SignedHundredths(x: real): int
  {
    if x < 0.0 then -(RoundHundredths(-x) as int) else RoundHundredths(x)
  }

  /** `toFixed(2)` of a whole number of hundredths. */
  function HundredthsToFixed(n: nat): (s: string)
    ensures |s| >= 4 && s[|s| - 3] == '.'
    ensures AllDigits(s[..|s| - 3]) && AllDigits(s[|s| - 2..])
    ensures |s| > 4 ==> s[0] != '0'
  {
    var frac := n % 100;
    NatToDecimal(n / 100) + ['.', Digit(frac / 10), Digit(frac % 10)]
  }

  /** `x.toFixed(2)`: a sign for negative `x`, the whole part, a point and
      exactly two rounded decimals. */
  function ToFixed2(x: real): (s: string)
    ensures !Blank(s)
    ensures x < 0.0 <==> s[0] == '-'
  {
    var t := if x < 0.0 then "-" + HundredthsToFixed(RoundHundredths(-x))
             else HundredthsToFixed(RoundHundredths(x));
    assert !Blank(t) by {
      if Blank(t) {
        BlankAt(t, |t| - 3);
      }
    }
    t
  }

  /** The signed number of hundredths a two-decimal string denotes, or None
      when the string does not have that shape. */
  function ParseFixed2(s: string): Option<int>
  {
    if |s| > 0 && s[0] == '-' then
      match ParseUnsigned(s[1..])
      case Some(n) => Some(-(n as int))
      case None => None
    else
      match ParseUnsigned(s)
      case Some(n) => Some(n as int)
      case None => None
  }

  function ParseUnsigned(s: string): Option<nat>
  {
    if |s| >= 4 && s[|s| - 3] == '.' && AllDigits(s[..|s| - 3]) && AllDigits(s[|s| - 2..]) then
      Some(100 * DecimalToNat(s[..|s| - 3]) + 10 * DigitValue(s[|s| - 2]) + DigitValue(s[|s| - 1]))
    else
      None
  }

  /** The rounded value is recovered from the formatted string. */
  lemma HundredthsRoundTrip(n: nat)
    ensures ParseUnsigned(HundredthsToFixed(n)) == Some(n)
  {
    var s := HundredthsToFixed(n);
    assert s[..|s| - 3] == NatToDecimal(n / 100);
    DecimalRoundTrip(n / 100);
  }

  /** Reading `x.toFixed(2)` back gives `x` rounded to hundredths, with its sign. */
  lemma ToFixed2RoundTrip(x: real)
    ensures ParseFixed2(ToFixed2(x)) == Some(SignedHundredths(x))
  {
    if x < 0.0 {
      var h := HundredthsToFixed(RoundHundredths(-x));
      HundredthsRoundTrip(RoundHundredths(-x));
      assert ("-" + h)[1..] == h;
    } else {
      var h := HundredthsToFixed(RoundHundredths(x));
      HundredthsRoundTrip(RoundHundredths(x));
      assert h[0] != '-';
    }
  }

  /** `(0).toFixed(2)` is the literal the history strip shows for a lost round. */
  lemma ZeroToFixed2()
    ensures ToFixed2(0.0) == "0.00"
  {
    assert RoundHundredths(0.0) == 0;
    assert NatToDecimal(0) == "0";
  }

  /** `(2).toFixed(2)` is "2.00". */
  lemma TwoToFixed2()
    ensures ToFixed2(2.0) == "2.00"
  {
    assert RoundHundredths(2.0) == 200;
    assert Digit(0) == '0' && Digit(2) == '2';
    assert NatToDecimal(2) == "2";
    assert HundredthsToFixed(200) == "2.00";
  }
}

=== FILE: History.dfy ===
/**
 The round-history strip of the Limbo page: a most-recent-first sequence of
 entries, each an identifier and the text shown for one settled round.
 */
module History {
  import opened Text

  /** One history entry. The identifier is freshly generated by the page
      (a random UUID); here it is supplied by the caller. */
  datatype HistoryItem = HistoryItem(id: string, text: string)

  /** `addHistoryItem`: text that trims to nothing is ignored; otherwise a new
      entry is placed in front of the existing ones, which keep their order. */
  function AddHistoryItem(items: seq<HistoryItem>, id: string, text: string): (r: seq<HistoryItem>)
    ensures Blank(text) ==> r == items
    ensures !Blank(text) ==> |r| == |items| + 1 && r[0] == HistoryItem(id, text) && r[1..] == items
  {
    if Trim(text) != [] then [HistoryItem(id, text)] + items else items
  }
}

=== FILE: LocalGame.dfy ===
/**
 The stand-alone Limbo page (`playGame`): a local round with no server.
 The player's bet is checked against the balance, a multiplier is drawn,
 and the balance is settled on the spot.
 */
module LocalGame {
  import opened Values
  import opened Fixed

  /** The page state `playGame` writes. */
  datatype Game = Game(balance: real, result: Option<real>, message: string)

  /** The drawn multiplier, `Math.random() * 10`, lies in [0, 10). */
  predicate ValidDraw(draw: real)
  {
    0.0 <= draw < 10.0
  }

  /** A round is won exactly when the draw is strictly above the target. */
  predicate Wins(draw: real, target: real)
  {
    draw > target
  }

  function WinMessage(draw: real, winnings: real): string
  {
    "You win! Multiplier: " + ToFixed2(draw) + ". Winnings: " + ToFixed2(winnings)
  }

  function LoseMessage(draw: real): string
  {
    "You lose. Multiplier: " + ToFixed2(draw)
  }

  /** `playGame` with the current bet and target and a drawn multiplier. */
  function PlayGame(g: Game, bet: real, target: real, draw: real): (r: Game)
    requires ValidDraw(draw)
    // A bet above the balance changes nothing but the message.
    ensures bet > g.balance ==> r == g.(message := "Insufficient balance")
    // Otherwise the draw is shown, and the balance moves by the round's net gain.
    ensures bet <= g.balance ==> r.result == Some(draw)
    ensures bet <= g.balance && Wins(draw, target) ==>
      r.balance == g.balance + bet * target - bet && r.message == WinMessage(draw, bet * target)
    ensures bet <= g.balance && !Wins(draw, target) ==>
      r.balance == g.balance - bet && r.message == LoseMessage(draw)
  {
    if bet > g.balance then
      g.(message := "Insufficient balance")
    else
      var drawn := g.(result := Some(draw));
      if draw > target then
        var winnings := bet * target;
        drawn.(balance := g.balance + winnings - bet, message := WinMessage(draw, winnings))
      else
        drawn.(balance := g.balance - bet, message := LoseMessage(draw))
  }

  /** A draw equal to the target loses. */
  lemma TieLoses(g: Game, bet: real, target: real)
    requires ValidDraw(target) && bet <= g.balance
    ensures PlayGame(g, bet, target, target).balance == g.balance - bet
  {
  }

  /** With a non-negative bet the guard keeps a lost round from driving the
      balance below zero. */
  lemma LossKeepsBalanceNonNegative(g: Game, bet: real, target: real, draw: real)
    requires ValidDraw(draw) && 0.0 <= bet <= g.balance && !Wins(draw, target)
    ensures PlayGame(g, bet, target, draw).balance >= 0.0
  {
  }

  /** The guard is only an upper bound: a negative bet is played, and losing
      it raises the balance. */
  lemma NegativeBetLossRaisesBalance(g: Game, bet: real, target: real, draw: real)
    requires ValidDraw(draw) && bet < 0.0 && bet <= g.balance && !Wins(draw, target)
    ensures PlayGame(g, bet, target, draw).result == Some(draw)
    ensures PlayGame(g, bet, target, draw).balance > g.balance
  {
  }

  /** The net change of the balance over a played round: `bet * (target - 1)`
      on a win, `-bet` on a loss. */
  lemma NetChange(g: Game, bet: real, target: real, draw: real)
    requires ValidDraw(draw) && bet <= g.balance
    ensures Wins(draw, target) ==> PlayGame(g, bet, target, draw).balance - g.balance == bet * (target - 1.0)
    ensures !Wins(draw, target) ==> PlayGame(g, bet, target, draw).balance - g.balance == -bet
  {
  }
}

=== FILE: Reveal.dfy ===
/**
 The reveal animation of the Limbo page: once the server's result is known,
 a repeating 10 ms timer raises a counter from 0 toward the result by a fixed
 increment, clamps it to the result, stops the timer and runs settlement.
 Timer ticks are modelled as explicit steps of a state machine.
 */
module Reveal {
  import opened Values

  /** The animation window in milliseconds (fixed by the page). */
  const Duration: real := 1000.0
  /** The interval between ticks in milliseconds. */
  const TickMs: real := 10.0
  /** Ticks in one window, `Duration / TickMs`. */
  const TickCount: nat := 100

  /** The timer's closure state: the target, the per-tick increment, the
      counter, and whether the interval is still registered. */
  datatype Animator = Animator(result: real, increment: real, current: real, running: bool)

  /** The per-tick increment `result / (duration / 10)`: `TickCount` of them
      add up to the result. */
  function Increment(result: real): (inc: real)
    ensures inc * (TickCount as real) == result
    ensures result > 0.0 ==> inc > 0.0
    ensures result < 0.0 ==> inc < 0.0
  {
    result / (Duration / TickMs)
  }

  /** The effect run when the result changes: nothing starts for a missing or
      zero result; otherwise the counter starts at 0 with the interval running. */
  function Start(result: Option<real>): (a: Option<Animator>)
    ensures a.None? <==> result.None? || result.value == 0.0
    ensures a.Some? ==> a.value.running && a.value.current == 0.0
    ensures a.Some? ==> a.value.result == result.value && a.value.increment == Increment(result.value)
  {
    match result
    case None => None
    case Some(r) => if r == 0.0 then None else Some(Animator(r, Increment(r), 0.0, true))
  }

  /** The outcome of one timer tick: the next state, and whether this tick
      cleared the interval and ran the settlement branch. */
  datatype TickStep = TickStep(next: Animator, settles: bool)

  /** One tick: add the increment; once the counter reaches the result, clamp
      it to the result, stop the interval and settle. */
  function Tick(a: Animator): (t: TickStep)
    requires a.running
    ensures t.next.result == a.result && t.next.increment == a.increment
    // The interval stops exactly on the settling tick, with the exact result shown.
    ensures t.settles <==> !t.next.running
    ensures t.settles <==> a.current + a.increment >= a.result
    ensures t.settles ==> t.next.current == a.result
    // Below the result a tick advances by exactly one increment.
    ensures !t.settles ==> t.next.current == a.current + a.increment < a.result
    // For a positive result the counter never falls and never passes the result.
    ensures 0.0 < a.increment && a.current <= a.result ==> a.current <= t.next.current <= a.result
  {
    var c := a.current + a.increment;
    if c >= a.result then TickStep(a.(current := a.result, running := false), true)
    else TickStep(a.(current := c), false)
  }

  /** For a positive result, `k` increments reach the result exactly when
      `k` is at least the number of ticks in the window. */
  lemma ReachedIff(r: real, k: nat)
    requires r > 0.0
    ensures (k as real) * Increment(r) >= r <==> k >= TickCount
  {
    var inc := Increment(r);
    assert (k as real) * inc - r == ((k as real) - (TickCount as real)) * inc;
  }

  /** For a negative result the very first increment already passes it. */
  lemma NegativeFirstTickSettles(r: real)
    requires r < 0.0
    ensures Increment(r) >= r
  {
  }

  /** Runs the whole animation for a result pushed by the server. Returns the
      values shown on successive ticks and how many times settlement ran. */
  method RunReveal(result: Option<real>) returns (frames: seq<real>, settlements: nat)
    // Nothing is revealed or settled for a missing or zero result.
    ensures result.None? || result.value == 0.0 ==> frames == [] && settlements == 0
    // A positive result takes exactly one window of ticks, climbing by equal
    // steps, never falling and never overshooting, ending on the result; the
    // settlement branch runs once.
    ensures result.Some? && result.value > 0.0 ==>
      && |frames| == TickCount
      && settlements == 1
      && frames[|frames| - 1] == result.value
      && (forall i :: 0 <= i < |frames| - 1 ==> frames[i] == ((i + 1) as real) * Increment(result.value))
      && (forall i :: 0 <= i < |frames| ==> 0.0 < frames[i] <= result.value)
      && (forall i, j :: 0 <= i <= j < |frames| ==> frames[i] <= frames[j])
    // A negative result is clamped on the first tick.
    ensures result.Some? && result.value < 0.0 ==> frames == [result.value] && settlements == 1
  {
    frames := [];
    settlements := 0;
    var started := Start(result);
    if started.None? {
      return;
    }
    var a := started.value;
    var r := a.result;
    var ticks: nat := 0;
    while a.running
      invariant Revealing(a, r, ticks, frames, settlements)
      decreases (if r > 0.0 then TickCount else 1) - ticks
    {
      var t := Tick(a);
      TickKeepsRevealing(a, r, ticks, frames, settlements);
      a := t.next;
      frames := frames + [a.current];
      ticks := ticks + 1;
      if t.settles {
        settlements := settlements + 1;
      }
    }
    if r > 0.0 {
      FramesClimb(r, frames);
    }
  }

  /** The state of a reveal toward `r` after `ticks` ticks that showed
      `frames` and ran settlement `settlements` times: while running, the
      counter is `ticks` increments and nothing was settled; once stopped,
      the last frame is the result and settlement ran once; a positive result
      runs for exactly `TickCount` ticks, a negative one for one tick. */
  ghost predicate Revealing(a: Animator, r: real, ticks: nat, frames: seq<real>, settlements: nat)
  {
    && a.result == r && a.increment == Increment(r) && r != 0.0
    && |frames| == ticks
    && (a.running ==> settlements == 0 && a.current == (ticks as real) * a.increment)
    && (!a.running ==> settlements == 1 && a.current == r && ticks > 0 && frames[ticks - 1] == r)
    && (r > 0.0 ==> ticks <= TickCount && (a.running <==> ticks < TickCount))
    && (r < 0.0 ==> ticks <= 1 && (a.running <==> ticks == 0))
    && (r > 0.0 ==> forall i :: 0 <= i < ticks && i < TickCount - 1 ==> frames[i] == ((i + 1) as real) * a.increment)
  }

  /** One tick of a running reveal keeps `Revealing`. */
  lemma TickKeepsRevealing(a: Animator, r: real, ticks: nat, frames: seq<real>, settlements: nat)
    requires Revealing(a, r, ticks, frames, settlements) && a.running
    ensures var t := Tick(a);
      Revealing(t.next, r, ticks + 1, frames + [t.next.current], settlements + if t.settles then 1 else 0)
  {
    NextStep(ticks, a.increment);
    if r > 0.0 {
      ReachedIff(r, ticks + 1);
    }
  }

  /** One more tick adds one more increment. */
  lemma NextStep(k: nat, inc: real)
    ensures (k as real) * inc + inc == ((k + 1) as real) * inc
  {
  }

  lemma PositiveSteps(k: nat, inc: real)
    requires k > 0 && inc > 0.0
    ensures (k as real) * inc > 0.0
  {
  }

  /** Frames that are equal steps of a positive increment up to the last one,
      which is the result itself, are positive, bounded by the result and
      non-decreasing. */
  lemma FramesClimb(r: real, frames: seq<real>)
    requires r > 0.0 && |frames| == TickCount && frames[|frames| - 1] == r
    requires forall i :: 0 <= i < |frames| - 1 ==> frames[i] == ((i + 1) as real) * Increment(r)
    ensures forall i :: 0 <= i < |frames| ==> 0.0 < frames[i] <= r
    ensures forall i, j :: 0 <= i <= j < |frames| ==> frames[i] <= frames[j]
  {
    var inc := Increment(r);
    forall i | 0 <= i < |frames|
      ensures 0.0 < frames[i] <= r
    {
      if i < |frames| - 1 {
        ReachedIff(r, i + 1);
        PositiveSteps(i + 1, inc);
      }
    }
    forall i, j | 0 <= i <= j < |frames|
      ensures frames[i] <= frames[j]
    {
      if j < |frames| - 1 {
        assert frames[j] - frames[i] == ((j - i) as real) * inc;
      }
    }
  }
}

=== FILE: Round.dfy ===
/**
 One Limbo round on the page, end to end: the server's result push, the
 reveal it starts and the settlement the reveal ends in. The module-level
 status the page keeps between the push and the last tick is an explicit
 field of the round here.
 */
module Round {
  import opened Values
  import opened History
  import opened Wager
  import opened Reveal
  import opened Settlement

  /** The payload of a result push from the server. */
  datatype ResultPush = ResultPush(profit: real, result: real, status: Status)

  /** What the page remembers about the round in flight: the bet form, the
      result that drives the reveal, and the status saved from the push. */
  datatype RoundState = RoundState(bet: BetForm, result: Option<real>, saved: Option<Status>)

  /** The result-push handler: it records the result and the status and copies
      the profit into the bet form; stake and multiplier are untouched. */
  function OnResult(r: RoundState, push: ResultPush): (r': RoundState)
    ensures r'.result == Some(push.result) && r'.saved == Some(push.status)
    ensures r'.bet.profit == Some(push.profit)
    ensures r'.bet.stake == r.bet.stake && r'.bet.multiplier == r.bet.multiplier
  {
    RoundState(r.bet.(profit := Some(push.profit)), Some(push.result), Some(push.status))
  }

  /** The reveal effect followed by the settlement it triggers. The shown
      status is cleared when the reveal starts. */
  method RevealAndSettle(p: Page, round: RoundState, id: string) returns (frames: seq<real>, q: Page)
    // A missing or zero result starts nothing and changes nothing.
    ensures round.result.None? || round.result.value == 0.0 ==> frames == [] && q == p
    // Otherwise the reveal ends on the result and settlement runs exactly once.
    ensures round.result.Some? && round.result.value != 0.0 ==>
      && frames != []
      && frames[|frames| - 1] == round.result.value
      && q == Settle(p.(shown := None), round.bet, round.saved, id)
    ensures round.result.Some? && round.result.value > 0.0 ==> |frames| == TickCount
  {
    var settlements;
    frames, settlements := RunReveal(round.result);
    q := p;
    if frames != [] {
      q := q.(shown := None);
    }
    if settlements == 1 {
      q := Settle(q, round.bet, round.saved, id);
    }
  }

  /** One accepted round on the page, when the debit renders before the
      result push starts the reveal: `placeBet` with a stake the guard lets
      through and a reply carrying a bet, then the push, then the reveal and
      the settlement it ends in. The form's profit starts at 0 and the
      multiplier is as typed (possibly 0). */
  method AcceptedRoundBalance(balance: real, history: seq<HistoryItem>, stake: real, multiplier: real,
                              push: ResultPush, id: string) returns (frames: seq<real>, q: Page)
    requires stake != 0.0 && stake <= balance
    // A zero result starts no reveal: only the debit remains.
    ensures push.result == 0.0 ==> frames == [] && q == Page(balance - stake, history, None)
    // A zero multiplier reveals the result but skips settlement: only the
    // debit remains.
    ensures push.result != 0.0 && multiplier == 0.0 ==>
      && frames != [] && frames[|frames| - 1] == push.result
      && q == Page(balance - stake, history, None)
    // Otherwise the balance moves by exactly profit minus stake and one entry
    // goes in front of the old ones.
    ensures push.result != 0.0 && multiplier != 0.0 ==>
      && frames != [] && frames[|frames| - 1] == push.result
      && q.balance == balance - stake + push.profit
      && |q.history| == |history| + 1
      && q.history[1..] == history
      && q.shown == Some(push.status)
  {
    var placed := PlaceBet(Finite(stake), balance, Responded(true));
    var round := OnResult(RoundState(BetForm(Finite(stake), Finite(multiplier), Some(0.0)), None, None), push);
    frames, q := RevealAndSettle(Page(placed.balance, history, None), round, id);
  }

  /** The other render order: the result push renders before the accepted
      bet's debit, so the reveal captures the balance from before the debit.
      `debited` is the balance the late debit writes and `final` is the
      balance the page ends with. A round that settles writes the pre-debit
      balance plus the profit over the debit, and the debit is lost; a round
      that does not settle keeps the debit. */
  method PushBeforeDebitDropsDebit(balance: real, history: seq<HistoryItem>, stake: real, multiplier: real,
                                   push: ResultPush, id: string) returns (debited: real, q: Page, final: real)
    requires stake != 0.0 && stake <= balance
    ensures debited == balance - stake
    // Nothing settles: the settlement path leaves the captured balance, and
    // the page keeps the debit.
    ensures push.result == 0.0 || multiplier == 0.0 ==> q.balance == balance && final == balance - stake
    // The round settles: the debit is overwritten by the captured balance
    // plus the profit.
    ensures push.result != 0.0 && multiplier != 0.0 ==>
      q.balance == balance + push.profit && final == balance + push.profit
  {
    var round := OnResult(RoundState(BetForm(Finite(stake), Finite(multiplier), Some(0.0)), None, None), push);
    var frames;
    frames, q := RevealAndSettle(Page(balance, history, None), round, id);
    var placed := PlaceBet(Finite(stake), balance, Responded(true));
    debited := placed.balance;
    final := if push.result != 0.0 && multiplier != 0.0 then q.balance else debited;
  }

  /** A won round: balance 100, stake 10 at target 2, server profit 10. The
      strip shows the target multiplier, "2.00". */
  lemma WonRoundExample(id: string)
    ensures
      var placed := PlaceBet(Finite(10.0), 100.0, Responded(true));
      var round := OnResult(RoundState(BetForm(Finite(10.0), Finite(2.0), Some(0.0)), None, None),
                            ResultPush(10.0, 3.0, Win));
      var settled := Settle(Page(placed.balance, [], None), round.bet, round.saved, id);
      settled == Page(100.0, [HistoryItem(id, "2.00")], Some(Win))
  {
    var placed := PlaceBet(Finite(10.0), 100.0, Responded(true));
    assert placed.balance == 90.0;
    var round := OnResult(RoundState(BetForm(Finite(10.0), Finite(2.0), Some(0.0)), None, None),
                          ResultPush(10.0, 3.0, Win));
    assert round.bet == BetForm(Finite(10.0), Finite(2.0), Some(10.0)) && round.saved == Some(Win);
    Fixed.TwoToFixed2();
    var settled := Settle(Page(90.0, [], None), round.bet, round.saved, id);
    assert settled.history[0] == HistoryItem(id, "2.00");
    assert settled.history == [HistoryItem(id, "2.00")];
  }

  /** A lost round: balance 100, stake 10, server profit 0. The strip shows "0.00". */
  lemma LostRoundExample(id: string)
    ensures
      var placed := PlaceBet(Finite(10.0), 100.0, Responded(true));
      var round := OnResult(RoundState(BetForm(Finite(10.0), Finite(2.0), Some(0.0)), None, None),
                            ResultPush(0.0, 1.5, Lose));
      var settled := Settle(Page(placed.balance, [], None), round.bet, round.saved, id);
      settled == Page(90.0, [HistoryItem(id, "0.00")], Some(Lose))
  {
  }
}

=== FILE: Settlement.dfy ===
/**
 The settlement branch of the reveal timer: when the counter reaches the
 result, the page shows the round's status, credits the server's profit to
 the balance and records the round in the history strip.
 */
module Settlement {
  import opened Values
  import opened Text
  import opened Fixed
  import opened History

  /** The round status pushed by the server. */
  datatype Status = Win | Lose

  /** The bet form as the page holds it: stake and target multiplier as typed
      by the player, and the profit copied from the server's result push. */
  datatype BetForm = BetForm(stake: Num, multiplier: Num, profit: Option<real>)

  /** The page state settlement writes: balance, history strip, and the
      status used to colour the counter (None while undecided). */
  datatype Page = Page(balance: real, history: seq<HistoryItem>, shown: Option<Status>)

  /** The history text for a settled round: the target multiplier with two
      decimals on a win, and `(0).toFixed(2)` otherwise (a lost round, or no
      status received). It is never blank, so it is always recorded. */
  function HistoryText(multiplier: real, saved: Option<Status>): (t: string)
    ensures !Blank(t)
    ensures saved != Some(Win) ==> t == "0.00"
    ensures saved == Some(Win) ==> ParseFixed2(t) == Some(SignedHundredths(multiplier))
  {
    if saved == Some(Win) then
      ToFixed2RoundTrip(multiplier);
      ToFixed2(multiplier)
    else
      ZeroToFixed2();
      ToFixed2(0.0)
  }

  /** Settlement is skipped unless the profit is defined and the multiplier
      is truthy. */
  predicate CanSettle(bet: BetForm)
  {
    bet.profit.Some? && Truthy(bet.multiplier)
  }

  /** The settlement branch. `saved` is the status from the most recent
      result push; `id` is the fresh identifier for the history entry. */
  function Settle(p: Page, bet: BetForm, saved: Option<Status>, id: string): (r: Page)
    // Without a profit or with a falsy multiplier nothing changes.
    ensures !CanSettle(bet) ==> r == p
    // Otherwise the profit is credited once, the status is shown, and exactly
    // one entry is put in front of the unchanged older entries.
    ensures CanSettle(bet) ==>
      && r.balance == p.balance + bet.profit.value
      && r.shown == saved
      && |r.history| == |p.history| + 1
      && r.history[1..] == p.history
      && r.history[0].id == id
      && (saved == Some(Win) ==> r.history[0].text == ToFixed2(bet.multiplier.value))
      && (saved != Some(Win) ==> r.history[0].text == "0.00")
  {
    if CanSettle(bet) then
      Page(p.balance + bet.profit.value,
           AddHistoryItem(p.history, id, HistoryText(bet.multiplier.value, saved)),
           saved)
    else
      p
  }
}

=== FILE: Text.dfy ===
/**
 The part of JavaScript's `String.prototype.trim` that the history ledger
 relies on: which characters count as white space, and what is left once
 they are stripped from both ends.
 */
module Text {

  /** ECMAScript WhiteSpace and LineTerminator code points: TAB, LF, VT, FF,
      CR, SPACE, NBSP, OGHAM SPACE MARK, EN QUAD .. HAIR SPACE, LINE and
      PARAGRAPH SEPARATOR, NARROW NBSP, MEDIUM MATHEMATICAL SPACE,
      IDEOGRAPHIC SPACE and the BYTE ORDER MARK. */
  predicate IsWhitespace(c: char)
  {
    var n := c as int;
    || (0x09 <= n <= 0x0D)
    || n == 0x20
    || n == 0xA0
    || n == 0x1680
    || (0x2000 <= n <= 0x200A)
    || n == 0x2028
    || n == 0x2029
    || n == 0x202F
    || n == 0x205F
    || n == 0x3000
    || n == 0xFEFF
  }


  /** Every character of `s` is white space (the empty string included),
      read one character at a time. */
  predicate Blank(s: string)
    decreases |s|
  {
    |s| == 0 || (IsWhitespace(s[0]) && Blank(s[1..]))
  }

  /** `Blank` agrees with its pointwise reading. */
  lemma {:induction false} BlankIffAllWhitespace(s: string)
    ensures Blank(s) <==> forall i :: 0 <= i < |s| ==> IsWhitespace(s[i])
    decreases |s|
  {
    if |s| > 0 {
      BlankIffAllWhitespace(s[1..]);
      assert forall i :: 1 <= i < |s| ==> s[1..][i - 1] == s[i];
    }
  }

  /** A blank string stays blank when a white-space character is appended. */
  lemma {:induction false} BlankSnoc(s: string, c: char)
    requires Blank(s) && IsWhitespace(c)
    ensures Blank(s + [c])
    decreases |s|
  {
    if |s| > 0 {
      BlankSnoc(s[1..], c);
      assert (s + [c])[1..] == s[1..] + [c];
    }
  }

  /** Every suffix of a blank string is blank. */
  lemma {:induction false} BlankSuffix(s: string, i: nat)
    requires Blank(s) && i <= |s|
    ensures Blank(s[i..])
    decreases i
  {
    if i > 0 {
      BlankSuffix(s[1..], i - 1);
      assert s[1..][i - 1..] == s[i..];
    }
  }

  /** Every character of a blank string is white space. */
  lemma {:induction false} BlankAt(s: string, i: nat)
    requires Blank(s) && i < |s|
    ensures IsWhitespace(s[i])
  {
    BlankSuffix(s, i);
  }

  /** Strips leading white space: the result is a suffix of `s`, what was
      dropped is blank, and the result does not start with white space. */
  function TrimStart(s: string): (r: string)
    ensures |r| <= |s| && r == s[|s| - |r|..]
    ensures Blank(s[..|s| - |r|])
    ensures r == [] || !IsWhitespace(r[0])
  {
    if |s| > 0 && IsWhitespace(s[0]) then
      var r := TrimStart(s[1..]);
      TrimStartStep(s, s[1..], r);
      r
    else
      assert s[..0] == [];
      s
  }

  /** Strips trailing white space: the result is a prefix of `s`, what was
      dropped is blank, and the result does not end with white space. */
  function TrimEnd(s: string): (r: string)
    ensures |r| <= |s| && r == s[..|r|]
    ensures Blank(s[|r|..])
    ensures r == [] || !IsWhitespace(r[|r| - 1])
  {
    if |s| > 0 && IsWhitespace(s[|s| - 1]) then
      var r := TrimEnd(s[..|s| - 1]);
      TrimEndStep(s, s[..|s| - 1], r);
      r
    else
      assert s[|s|..] == [];
      s
  }

  /** Stripping one leading white-space character keeps `TrimStart`'s
      promises. */
  lemma TrimStartStep(s: string, p: string, r: string)
    requires |s| > 0 && p == s[1..] && IsWhitespace(s[0])
    requires |r| <= |p| && r == p[|p| - |r|..] && Blank(p[..|p| - |r|])
    ensures |r| <= |s| && r == s[|s| - |r|..] && Blank(s[..|s| - |r|])
  {
    assert s[..|s| - |r|][1..] == p[..|p| - |r|];
  }

  /** Stripping one trailing white-space character keeps `TrimEnd`'s
      promises. */
  lemma TrimEndStep(s: string, p: string, r: string)
    requires |s| > 0 && p == s[..|s| - 1] && IsWhitespace(s[|s| - 1])
    requires |r| <= |p| && r == p[..|r|] && Blank(p[|r|..])
    ensures |r| <= |s| && r == s[..|r|] && Blank(s[|r|..])
  {
    BlankSnoc(p[|r|..], s[|s| - 1]);
    assert p[|r|..] + [s[|s| - 1]] == s[|r|..];
  }

  /** `String.prototype.trim`: neither end of the result is white space,
      and it is empty exactly when `s` is blank. */
  function Trim(s: string): (r: string)
    ensures r == [] || (!IsWhitespace(r[0]) && !IsWhitespace(r[|r| - 1]))
    ensures r == [] <==> Blank(s)
  {
    var t := TrimStart(s);
    var r := TrimEnd(t);
    PrefixKeepsHead(t, r);
    EmptyIffBlank(s, t, r, |s| - |t|);
    r
  }

  /** `s.trim()` is the slice `s[i..j]`; everything stripped from either end
      is white space. */
  lemma {:induction false} TrimIsSlice(s: string) returns (i: nat, j: nat)
    ensures i <= j <= |s| && Trim(s) == s[i..j]
    ensures Blank(s[..i]) && Blank(s[j..])
  {
    var t := TrimStart(s);
    var r := TrimEnd(t);
    i, j := StripBothEnds(s, t, r);
  }

  /** Stripping a blank head and then a blank tail leaves the slice between
      them. */
  lemma StripBothEnds(s: string, t: string, r: string) returns (i: nat, j: nat)
    requires |t| <= |s| && t == s[|s| - |t|..] && Blank(s[..|s| - |t|])
    requires |r| <= |t| && r == t[..|r|] && Blank(t[|r|..])
    ensures i <= j <= |s| && r == s[i..j] && Blank(s[..i]) && Blank(s[j..])
  {
    i := |s| - |t|;
    j := i + |r|;
    SliceOfSlice(s, t, r, i);
  }

  lemma SuffixPrefix<T>(s: seq<T>, i: nat, k: nat)
    requires i + k <= |s|
    ensures s[i..][..k] == s[i..i + k]
    ensures s[i..][k..] == s[i + k..]
  {
  }

  /** A prefix of a suffix of `s` is a slice of `s`; its stripped ends carry over. */
  lemma SliceOfSlice(s: string, t: string, r: string, i: nat)
    requires i <= |s| && t == s[i..] && Blank(s[..i])
    requires |r| <= |t| && r == t[..|r|] && Blank(t[|r|..])
    ensures i + |r| <= |s| && r == s[i..i + |r|] && Blank(s[i + |r|..])
  {
    SuffixPrefix(s, i, |r|);
  }

  lemma PrefixKeepsHead(t: string, r: string)
    requires |r| <= |t| && r == t[..|r|]
    requires t == [] || !IsWhitespace(t[0])
    requires r == [] || !IsWhitespace(r[|r| - 1])
    ensures r == [] || (!IsWhitespace(r[0]) && !IsWhitespace(r[|r| - 1]))
  {
    if r != [] {
      assert r[0] == t[0];
    }
  }

  /** What is left after stripping both ends is empty exactly when all of
      `s` was white space. */
  lemma EmptyIffBlank(s: string, t: string, r: string, i: nat)
    requires i <= |s| && t == s[i..] && Blank(s[..i])
    requires t == [] || !IsWhitespace(t[0])
    requires |r| <= |t| && r == t[..|r|] && Blank(t[|r|..])
    ensures r == [] <==> Blank(s)
  {
    if r == [] {
      assert t[0..] == t;
      assert s[..i] + t == s;
      BlankConcat(s[..i], t);
    } else if Blank(s) {
      BlankSuffix(s, i);
    }
  }

  /** Two blank strings concatenate to a blank string. */
  lemma {:induction false} BlankConcat(a: string, b: string)
    requires Blank(a) && Blank(b)
    ensures Blank(a + b)
    decreases |a|
  {
    if |a| > 0 {
      BlankConcat(a[1..], b);
      assert (a + b)[1..] == a[1..] + b;
    } else {
      assert a + b == b;
    }
  }


}

=== FILE: Values.dfy ===
/**
 Values shared by the Limbo pages: an optional value, and the JavaScript
 `number` as the bet form holds it (possibly absent, possibly NaN after
 `parseFloat` of an unreadable input).
 */
module Values {

  datatype Option<+T> = None | Some(value: T)

  /** A form field of type `number | undefined`. IEEE-754 rounding is not
      modelled: a present number is a mathematical real. */
  datatype Num = Undefined | NaN | Finite(value: real)

  /** JavaScript truthiness of a number: `undefined`, `NaN` and `0` are falsy. */
  predicate Truthy(n: Num)
  {
    n.Finite? && n.value != 0.0
  }
}

=== FILE: Wager.dfy ===
/**
 Bet submission on the Limbo page (`placeBet`): the client-side guard, the
 call to the wager service, and the balance debit once the service has
 accepted the bet.
 */
module Wager {
  import opened Values

  /** What the wager service answered, as far as `placeBet` looks at it:
      the request threw, or a response whose `bet` field is truthy or not
      (an absent, `null` or `0` field all read as no bet). */
  datatype Reply = Threw | Responded(hasBet: bool)

  /** The transient notice shown to the player. */
  datatype Notice = InvalidBetInput | InsufficientBalance | CouldNotPlaceBet | ErrorOccurred | BetPlaced

  function NoticeText(n: Notice): string
  {
    match n
    case InvalidBetInput => "Invalid bet input"
    case InsufficientBalance => "Insufficient balance"
    case CouldNotPlaceBet => "Could not place bet"
    case ErrorOccurred => "An error occurred"
    case BetPlaced => "Bet placed"
  }

  /** The effect of one `placeBet`: the notice, the balance afterwards, and
      whether the wager service was contacted at all. */
  datatype Attempt = Attempt(notice: Notice, balance: real, posted: bool)

  /** `placeBet` with the current stake and balance. `reply` is what the
      service would answer if asked; it is consulted only when the guard
      lets the bet through. */
  function PlaceBet(stake: Num, balance: real, reply: Reply): (a: Attempt)
    // A falsy stake (absent, NaN or zero) is refused before any request.
    ensures !Truthy(stake) ==> a == Attempt(InvalidBetInput, balance, false)
    // A stake above the balance is refused before any request.
    ensures Truthy(stake) && stake.value > balance ==> a == Attempt(InsufficientBalance, balance, false)
    // Otherwise the service is contacted.
    ensures a.posted <==> Truthy(stake) && stake.value <= balance
    // The balance moves only on an accepted bet, and then by exactly the stake.
    ensures a.balance != balance ==> a.notice == BetPlaced
    ensures a.notice == BetPlaced <==> a.posted && reply == Responded(true)
    ensures a.notice == BetPlaced ==> a.balance == balance - stake.value
    ensures a.posted && reply == Threw ==> a == Attempt(ErrorOccurred, balance, true)
    ensures a.posted && reply == Responded(false) ==> a == Attempt(CouldNotPlaceBet, balance, true)
  {
    if !Truthy(stake) then Attempt(InvalidBetInput, balance, false)
    else if stake.value > balance then Attempt(InsufficientBalance, balance, false)
    else
      match reply
      case Threw => Attempt(ErrorOccurred, balance, true)
      case Responded(hasBet) =>
        if !hasBet then Attempt(CouldNotPlaceBet, balance, true)
        else Attempt(BetPlaced, balance - stake.value, true)
  }

  /** The guard alone lets a negative stake through: only falsy stakes and
      stakes above the balance are refused on the client. */
  lemma NegativeStakePassesGuard(s: real, balance: real)
    requires s < 0.0 && s <= balance
    ensures PlaceBet(Finite(s), balance, Responded(true)).notice == BetPlaced
    ensures PlaceBet(Finite(s), balance, Responded(true)).balance > balance
  {
  }
}
